=== FILE: README.md ===
# Conversation slice of the DocsGPT frontend, in Dafny

This project models the conversation state of the DocsGPT chat frontend
(`frontend/src/conversation/conversationSlice.ts`): the ordered list of
question/answer exchanges (`Query`), the request status (idle, loading,
failed) and the active conversation id, the reducers that change them, and
the pure logic inside the `fetchAnswer` thunk — the dispatch of each decoded
stream event and the normalisation of citation titles to their last path
segment.

Every reducer is a pure function `State -> State`; a `Partial<Query>` payload
is a `Patch` whose keys are absent or present (a present key may hold
`undefined`, which object spread copies). The thunk is a pure function of the
state, the streaming flag, whether preferences are present, and a `Backend`
record holding what the network delivered.

Files and modules:

- `wrappers.dfy` — `Wrappers`: `Option`.
- `titles.dfy` — `Titles`: JavaScript `split('/')` for one separator character, its inverse `Join`, and `LastSegment`.
- `models.dfy` — `ConversationModels`: `Status`, `Citation`, `Query`, `State`, `Slot`, `Patch`, and the shallow merge `{...q, ...p}`.
- `slice.dfy` — `ConversationSlice`: the reducers and the thunk's `pending` / `rejected` cases.
- `thunk.dfy` — `FetchAnswerThunk`: stream `Event`s, `Step`, `Run`, the single-shot reply, and `FetchAnswer`.

Behaviour kept as written:

- An empty or `undefined` answer fragment does not append. It takes the shallow-merge branch of `updateStreamingQuery` and overwrites the accumulated response with `""` or `undefined` (`FalsyFragmentOverwrites`).
- A title ending in `/` normalises to `""`, as JavaScript's `split` yields a trailing empty part.
- The stream's target index is the last index of the queries as read when the thunk starts.
- When preferences are missing, or the single-shot reply is falsy, nothing is dispatched after `pending`. The thunk then fulfils, and the slice has no case for that, so the status stays loading.

## Model

| member | source | states |
|---|---|---|
| ConversationSlice.AddQuery | frontend/src/conversation/conversationSlice.ts:135-137 | the queries grow by exactly one, the payload, at the end; earlier entries, status and conversation id are untouched |
| ConversationSlice.SetConversation | frontend/src/conversation/conversationSlice.ts:138-140 | the queries become the payload element by element, in order; status and conversation id are untouched |
| ConversationSlice.SetConversationOverwrites | frontend/src/conversation/conversationSlice.ts:138-140 | the result does not depend on the previous queries at all |
| ConversationSlice.UpdateStreamingQuery | frontend/src/conversation/conversationSlice.ts:141-155 | a truthy fragment extends the response (absent read as "") so that the old response is a proper prefix, and no other field or index changes; otherwise the payload is shallow-merged |
| ConversationSlice.FalsyFragmentOverwrites | frontend/src/conversation/conversationSlice.ts:146-154 | an empty or undefined fragment replaces the accumulated response with itself |
| ConversationSlice.UpdateConversationId | frontend/src/conversation/conversationSlice.ts:156-161 | the conversation id becomes the payload's, or null when the key is absent or undefined; queries and status untouched |
| ConversationSlice.UpdateStreamingSource | frontend/src/conversation/conversationSlice.ts:162-172 | the payload's first citation is appended after the existing ones (a one-element list when none), order kept; response, other fields and other queries untouched |
| ConversationSlice.UpdateQuery | frontend/src/conversation/conversationSlice.ts:173-182 | the query at the index becomes the shallow merge of the payload over it; length and every other index unchanged |
| ConversationSlice.UpdateQueryIdempotent | frontend/src/conversation/conversationSlice.ts:173-182 | applying the same update twice equals applying it once |
| ConversationSlice.UpdateQueryThen | frontend/src/conversation/conversationSlice.ts:178-181 | two updates at one index equal one update with the later payload spread over the earlier |
| ConversationModels.MergeThen | frontend/src/conversation/conversationSlice.ts:178-181 | spreading two patches in turn equals spreading their combination |
| ConversationModels.MergeIdempotent | frontend/src/conversation/conversationSlice.ts:178-181 | spreading one patch twice equals spreading it once |
| ConversationModels.MergeNoChange | frontend/src/conversation/conversationSlice.ts:178-181 | spreading the empty patch changes nothing |
| ConversationModels.MergeFull | frontend/src/conversation/conversationSlice.ts:178-181 | a patch with every key replaces the query entirely |
| ConversationSlice.SetStatus | frontend/src/conversation/conversationSlice.ts:183-185 | only the status changes, to the payload |
| ConversationSlice.Pending | frontend/src/conversation/conversationSlice.ts:189-191 | only the status changes, to loading |
| ConversationSlice.Rejected | frontend/src/conversation/conversationSlice.ts:192-196 | on a non-empty list: status failed, the last query's error is the fixed message, its question, response, citations and id are kept, other queries untouched |
| ConversationSlice.FirstSubmissionRejected | frontend/src/conversation/conversationSlice.ts:8-12 | from the initial state, a submitted question whose fetch is rejected leaves just that query, marked with the error, status failed and no conversation id |
| ConversationSlice.RejectedAfterAddQuery | frontend/src/conversation/conversationSlice.ts:192-196 | after submitting a query, a rejection marks exactly that query with the error |
| Titles.Split | frontend/src/conversation/conversationSlice.ts:46 | the split is never empty, no part holds `/`, and joining the parts with `/` gives back the title |
| Titles.SplitJoin | frontend/src/conversation/conversationSlice.ts:46 | splitting a join of separator-free parts gives back the parts |
| Titles.SplitConcat | frontend/src/conversation/conversationSlice.ts:46 | splitting `a + "/" + b` is the split of `a` followed by the split of `b` |
| Titles.LastSegment | frontend/src/conversation/conversationSlice.ts:46-48 | the normalised title is the longest suffix without `/`: a suffix, free of `/`, with `/` right before it when it is shorter than the title |
| Titles.LastSegmentUnchangedIff | frontend/src/conversation/conversationSlice.ts:89-92 | a title is unchanged exactly when it has no `/` |
| Titles.LastSegmentTrailingSeparator | frontend/src/conversation/conversationSlice.ts:46-48 | a title ending in `/` normalises to "" |
| Titles.LastSegmentAfterSeparator | frontend/src/conversation/conversationSlice.ts:46-48 | everything up to the last `/` is irrelevant |
| Titles.LastSegmentIdempotent | frontend/src/conversation/conversationSlice.ts:89-92 | normalising twice equals normalising once |
| Titles.FileNameExample | frontend/src/conversation/conversationSlice.ts:46-48 | "docs/guide/setup.md" is shown as "setup.md" |
| FetchAnswerThunk.Cite | frontend/src/conversation/conversationSlice.ts:44-53 | the text is the document; a truthy metadata title becomes its `/`-free last segment, otherwise the document is the title |
| FetchAnswerThunk.NormaliseSources | frontend/src/conversation/conversationSlice.ts:86-96 | same length and order, same texts; each truthy title becomes its last path segment, the longest `/`-free suffix of the original with `/` right before it when shorter; titles without `/` (and untitled citations) pass through unchanged |
| FetchAnswerThunk.NormaliseSourcesIdempotent | frontend/src/conversation/conversationSlice.ts:86-96 | normalising the citations twice equals once |
| FetchAnswerThunk.Step | frontend/src/conversation/conversationSlice.ts:32-73 | each event makes exactly one change: end sets idle, id sets the conversation id, source appends one normalised citation at the captured index, any other type appends or merges the fragment there; all other indices untouched |
| FetchAnswerThunk.Run | frontend/src/conversation/conversationSlice.ts:28-76 | dispatching the whole stream keeps the length, every query but the target, and the target's question, conversation id and error |
| FetchAnswerThunk.RunStatus | frontend/src/conversation/conversationSlice.ts:32-34 | after the stream the status is idle if an end event arrived, else unchanged |
| FetchAnswerThunk.RunConversationId | frontend/src/conversation/conversationSlice.ts:60-65 | after the stream the conversation id is the last id event's, or unchanged when none arrived |
| FetchAnswerThunk.RunFragments | frontend/src/conversation/conversationSlice.ts:66-73 | non-empty fragments leave the old response followed by their in-order concatenation |
| FetchAnswerThunk.StreamedResponse | frontend/src/conversation/conversationSlice.ts:146-148 | non-empty fragments streamed into an absent response give exactly their concatenation |
| FetchAnswerThunk.RunSources | frontend/src/conversation/conversationSlice.ts:42-59 | streamed citations are appended in arrival order after the existing ones, each normalised, response untouched |
| FetchAnswerThunk.RunAppend | frontend/src/conversation/conversationSlice.ts:28-76 | dispatching a stream in two pieces equals dispatching it whole |
| FetchAnswerThunk.RunResponse | frontend/src/conversation/conversationSlice.ts:66-73 | in any mixed stream whose fragments are non-empty, the response is the old one followed by the fragments in arrival order, untouched when none arrived |
| FetchAnswerThunk.RunCitations | frontend/src/conversation/conversationSlice.ts:42-59 | in any mixed stream, the citations are the old ones followed by the source events' normalised citations in arrival order, untouched when none arrived |
| FetchAnswerThunk.ProjectionsEmpty | frontend/src/conversation/conversationSlice.ts:42-73 | a stream yields no answers exactly when it has no fragment event, and no citations exactly when it has no source event |
| FetchAnswerThunk.LatestIdLast | frontend/src/conversation/conversationSlice.ts:60-65 | the latest id is the current one when no id event arrived, else the id of the id event no later id event follows |
| FetchAnswerThunk.RunLatestId | frontend/src/conversation/conversationSlice.ts:60-65 | in any mixed stream, the conversation id ends as the last id event's, or unchanged when none arrived |
| FetchAnswerThunk.CompletedStream | frontend/src/conversation/conversationSlice.ts:32-34 | non-empty fragments closed by an end event, into an absent response, give exactly their concatenation and an idle status |
| FetchAnswerThunk.RunAfterFalsy | frontend/src/conversation/conversationSlice.ts:146-153 | an empty or undefined fragment discards what was streamed before it: the response becomes that fragment followed by the non-empty fragments after it |
| FetchAnswerThunk.RunLastFalsy | frontend/src/conversation/conversationSlice.ts:66-73 | in any stream, the response is fixed by the last falsy fragment and the non-empty fragments after it |
| FetchAnswerThunk.FalsyFragmentExample | frontend/src/conversation/conversationSlice.ts:146-153 | streaming "a", "", "b" into an absent response leaves "b" |
| FetchAnswerThunk.ApplyAnswer | frontend/src/conversation/conversationSlice.ts:98-109 | the last query takes the reply's answer and normalised citations, keeping its other fields; conversation id is the reply's; status idle |
| FetchAnswerThunk.FetchAnswer | frontend/src/conversation/conversationSlice.ts:16-129 | only the last query changes and keeps its question; without preferences only pending applies; a failure ends failed with the error message on the last query; a single-shot failure or falsy reply keeps the response, citations and conversation ids; a single-shot reply ends idle with its answer, citations and id; a stream, failed or not, leaves the last id event's id, the old citations followed by the streamed ones, and a response that is the old one followed by the fragments when every fragment is non-empty, else the last falsy fragment followed by the non-empty fragments after it; a completed stream ends idle exactly when it carried an end event |

## Left out

- `frontend/src/About.tsx` and `frontend/src/PageNotFound.tsx`: static markup and links, no behaviour.
- `frontend/src/hooks/index.ts`: browser listeners and media queries, outside the conversation state.
- The network calls `fetchAnswerApi` and `fetchAnswerSteaming`: their results are the `Backend` parameter of `FetchAnswer`.
- `JSON.parse` of event data: events are already decoded into `Event`; a malformed event throwing inside the callback is not modelled.
- The background `getConversations` / `setConversations` reload and its `console.error`: it changes the preference slice, not this one.
- The `VITE_API_STREAMING` flag is the `streaming` parameter; the truthiness of `state.preference` is the `hasPreference` parameter. The API key and selected documents only feed the network call.
- The thunk's constant placeholder return value (lines 120-127): no case of this slice reads it.
- Redux Toolkit and immer machinery, the selectors `selectQueries` and `selectStatus` (field reads), and overlapping concurrent fetches, which the thunk does not guard against.
- UpdateStreamingQuery: requires the index to be inside the queries; out of range the reducer throws a `TypeError` when the fragment is truthy and otherwise writes outside the list (appending at index `queries.length`, leaving holes beyond it, setting a non-index property at a negative index), neither of which the model represents.
- UpdateStreamingSource: requires the index to be inside the queries; out of range the reducer throws a `TypeError`.
- UpdateQuery: requires the index to be inside the queries; out of range the reducer writes outside the list (appending at index `queries.length`, leaving holes beyond it, setting a non-index property at a negative index), which the model does not represent.
- UpdateStreamingSource: requires the payload's citation list to be present and non-empty; an empty list would push `undefined`, which a citation list here cannot hold.
- Rejected: requires a non-empty query list, since the reducer indexes `queries.length - 1` and throws on an empty list.
- FetchAnswer: requires a non-empty query list, because the callers append the query before fetching. With an empty list, every dispatch that addresses the captured index, and the rejection, would throw or write index -1.
- NormaliseSources: the `source &&` guard against a null citation has no counterpart, because citations here are never null.
- A `Patch` cannot hold an explicit `undefined` question; `Query.question` is always a string.

=== FILE: models.dfy ===
/** The conversation slice's records: a Query per question/answer exchange,
    the slice State, and Patch, the `Partial<Query>` payload that the update
    reducers shallow-merge into a query. */
module ConversationModels {
  import opened Wrappers

  /** Request status of the slice. */
  datatype Status = Idle | Loading | Failed

  /** One cited document: its display title and its text. */
  datatype Citation = Citation(title: string, text: string)

  /** One question/answer exchange. Every field but the question is optional. */
  datatype Query = Query(
    question: string,
    response: Option<string>,
    sources: Option<seq<Citation>>,
    conversationId: Option<string>,
    error: Option<string>)

  /** The slice state; `conversationId == None` is JavaScript's `null`. */
  datatype State = State(queries: seq<Query>, status: Status, conversationId: Option<string>)

  /** The slice's initial state: no queries, idle, no conversation. */
  const Initial: State := State([], Idle, None)

  /** One optional key of a partial object. A key can be absent, or present
      with a value that may itself be `undefined`: object spread copies a
      present key even when its value is `undefined`. */
  datatype Slot<T> = Omitted | Given(value: Option<T>) {

    /** Reading the key: an absent key reads as `undefined`. */
    function Read(): Option<T> {
      match this
      case Omitted => None
      case Given(v) => v
    }

    /** The field after spreading this key over a field holding `current`. */
    function Over(current: Option<T>): Option<T> {
      match this
      case Omitted => current
      case Given(v) => v
    }

    /** The key of `{...a, ...b}` with `this` from `a` and `later` from `b`. */
    function Then(later: Slot<T>): Slot<T> {
      if later.Given? then later else this
    }
  }

  /** A `Partial<Query>`; `question` is absent or a string. */
  datatype Patch = Patch(
    question: Option<string>,
    response: Slot<string>,
    sources: Slot<seq<Citation>>,
    conversationId: Slot<string>,
    error: Slot<string>)
  {
    /** The patch `{...this, ...later}`. */
    function Then(later: Patch): Patch {
      Patch(
        if later.question.Some? then later.question else question,
        response.Then(later.response),
        sources.Then(later.sources),
        conversationId.Then(later.conversationId),
        error.Then(later.error))
    }
  }

  /** The empty partial object `{}`. */
  const NoChange: Patch := Patch(None, Omitted, Omitted, Omitted, Omitted)

  /** `{ response }`. */
  function ResponsePatch(response: Option<string>): Patch {
    NoChange.(response := Given(response))
  }

  /** `{ sources }`. */
  function SourcesPatch(sources: seq<Citation>): Patch {
    NoChange.(sources := Given(Some(sources)))
  }

  /** `{ conversationId }`. */
  function ConversationIdPatch(id: Option<string>): Patch {
    NoChange.(conversationId := Given(id))
  }

  /** The patch that sets every field of a query to the fields of `q`. */
  function FullPatch(q: Query): Patch {
    Patch(Some(q.question), Given(q.response), Given(q.sources), Given(q.conversationId), Given(q.error))
  }

  /** The shallow merge `{...q, ...p}`: each key present in `p` replaces the
      field, each absent key keeps the field of `q`. */
  function Merge(q: Query, p: Patch): Query {
    Query(
      p.question.GetOr(q.question),
      p.response.Over(q.response),
      p.sources.Over(q.sources),
      p.conversationId.Over(q.conversationId),
      p.error.Over(q.error))
  }

  /** `{...q, ...{}}` is `q`. */
  lemma MergeNoChange(q: Query)
    ensures Merge(q, NoChange) == q
  {
  }

  /** Spreading a patch that has every key replaces the query outright. */
  lemma MergeFull(q: Query, q': Query)
    ensures Merge(q, FullPatch(q')) == q'
  {
  }

  /** `{...{...q, ...a}, ...b}` is `{...q, ...{...a, ...b}}`. */
  lemma MergeThen(q: Query, a: Patch, b: Patch)
    ensures Merge(Merge(q, a), b) == Merge(q, a.Then(b))
  {
  }

  /** Merging the same patch twice is merging it once. */
  lemma MergeIdempotent(q: Query, p: Patch)
    ensures Merge(Merge(q, p), p) == Merge(q, p)
  {
    MergeThen(q, p, p);
    assert p.Then(p) == p;
  }
}

=== FILE: slice.dfy ===
/** The conversation slice's reducers, each a pure function from the state
    and the action payload to the next state, and the `pending` / `rejected`
    cases it handles for the answer-fetching thunk. */
module ConversationSlice {
  import opened Wrappers
  import opened ConversationModels

  /** The message the `rejected` case stores on the last query. */
  const ErrorMessage: string := "Something went wrong. Please try again later."

  /** JavaScript truthiness of an optional string: present and non-empty. */
  predicate Truthy(s: Option<string>) {
    s.Some? && s.value != ""
  }

  /** `b` has the length of `a` and agrees with it everywhere except possibly at `i`. */
  ghost predicate SameExcept(a: seq<Query>, b: seq<Query>, i: int) {
    |a| == |b| && forall j :: 0 <= j < |a| && j != i ==> a[j] == b[j]
  }

  /** `addQuery`: push the payload onto the queries. */
  function AddQuery(st: State, q: Query): (r: State)
    ensures |r.queries| == |st.queries| + 1
    ensures r.queries[..|st.queries|] == st.queries
    ensures r.queries[|st.queries|] == q
    ensures r.status == st.status && r.conversationId == st.conversationId
  {
    st.(queries := st.queries + [q])
  }

  /** `setConversation`: the payload replaces the queries, in its order. */
  function SetConversation(st: State, qs: seq<Query>): (r: State)
    ensures |r.queries| == |qs|
    ensures forall i :: 0 <= i < |qs| ==> r.queries[i] == qs[i]
    ensures r.status == st.status && r.conversationId == st.conversationId
  {
    st.(queries := qs)
  }

  /** `updateStreamingQuery`: a truthy `response` fragment is appended to the
      query's response (an absent response counting as `""`) and every other
      key of the payload is ignored; any other payload, including an empty or
      `undefined` fragment, is shallow-merged and so overwrites the response. */
  function UpdateStreamingQuery(st: State, index: int, p: Patch): (r: State)
    requires 0 <= index < |st.queries|
    ensures SameExcept(st.queries, r.queries, index)
    ensures r.status == st.status && r.conversationId == st.conversationId
    ensures var q, q' := st.queries[index], r.queries[index];
      if Truthy(p.response.Read()) then
        && q'.response.Some?
        && q'.response.value == q.response.GetOr("") + p.response.Read().value
        && q.response.GetOr("") < q'.response.value
        && q' == q.(response := q'.response)
      else
        q' == Merge(q, p)
  {
    var q := st.queries[index];
    var fragment := p.response.Read();
    var q' := if Truthy(fragment) then q.(response := Some(q.response.GetOr("") + fragment.value))
              else Merge(q, p);
    st.(queries := st.queries[index := q'])
  }

  /** `updateConversationId`: the payload's id, or `null` when it has none. */
  function UpdateConversationId(st: State, p: Patch): (r: State)
    ensures r.conversationId == (if p.conversationId.Given? then p.conversationId.value else None)
    ensures r.queries == st.queries && r.status == st.status
  {
    st.(conversationId := p.conversationId.Read())
  }

  /** `updateStreamingSource`: the payload's first citation is pushed onto the
      query's citations, which start as a one-element list when absent. */
  function UpdateStreamingSource(st: State, index: int, p: Patch): (r: State)
    requires 0 <= index < |st.queries|
    requires p.sources.Read().Some? && |p.sources.Read().value| > 0
    ensures SameExcept(st.queries, r.queries, index)
    ensures r.status == st.status && r.conversationId == st.conversationId
    ensures var q, q' := st.queries[index], r.queries[index];
      var before := q.sources.GetOr([]);
      && q'.sources.Some?
      && |q'.sources.value| == |before| + 1
      && q'.sources.value[..|before|] == before
      && q'.sources.value[|before|] == p.sources.Read().value[0]
      && q' == q.(sources := q'.sources)
  {
    var q := st.queries[index];
    var added := p.sources.Read().value[0];
    var q' := match q.sources
      case None => q.(sources := Some([added]))
      case Some(cs) => q.(sources := Some(cs + [added]));
    st.(queries := st.queries[index := q'])
  }

  /** `updateQuery`: shallow-merge the payload into the query at `index`. */
  function UpdateQuery(st: State, index: int, p: Patch): (r: State)
    requires 0 <= index < |st.queries|
    ensures SameExcept(st.queries, r.queries, index)
    ensures r.queries[index] == Merge(st.queries[index], p)
    ensures r.status == st.status && r.conversationId == st.conversationId
  {
    st.(queries := st.queries[index := Merge(st.queries[index], p)])
  }

  /** `setStatus`: only the status changes. */
  function SetStatus(st: State, s: Status): (r: State)
    ensures r.status == s
    ensures r.queries == st.queries && r.conversationId == st.conversationId
  {
    st.(status := s)
  }

  /** The thunk's `pending` case: the status becomes loading, nothing else changes. */
  function Pending(st: State): (r: State)
    ensures r.status == Loading
    ensures r.queries == st.queries && r.conversationId == st.conversationId
  {
    st.(status := Loading)
  }

  /** The thunk's `rejected` case: the status becomes failed and the last
      query gets the fixed error message; its response and citations stay. */
  function Rejected(st: State): (r: State)
    requires |st.queries| > 0
    ensures r.status == Failed && r.conversationId == st.conversationId
    ensures SameExcept(st.queries, r.queries, |st.queries| - 1)
    ensures var q, q' := st.queries[|st.queries| - 1], r.queries[|st.queries| - 1];
      && q'.error == Some(ErrorMessage)
      && q'.question == q.question && q'.response == q.response
      && q'.sources == q.sources && q'.conversationId == q.conversationId
  {
    var last := |st.queries| - 1;
    st.(status := Failed, queries := st.queries[last := st.queries[last].(error := Some(ErrorMessage))])
  }

  /** Replacing the queries discards the old ones: the result depends only
      on the payload, the status and the conversation id. */
  lemma SetConversationOverwrites(a: State, b: State, qs: seq<Query>)
    requires a.status == b.status && a.conversationId == b.conversationId
    ensures SetConversation(a, qs) == SetConversation(b, qs)
  {
  }

  /** Applying the same `updateQuery` twice is applying it once. */
  lemma UpdateQueryIdempotent(st: State, index: int, p: Patch)
    requires 0 <= index < |st.queries|
    ensures UpdateQuery(UpdateQuery(st, index, p), index, p) == UpdateQuery(st, index, p)
  {
    MergeIdempotent(st.queries[index], p);
  }

  /** Two `updateQuery`s at one index are one update with the combined patch. */
  lemma UpdateQueryThen(st: State, index: int, a: Patch, b: Patch)
    requires 0 <= index < |st.queries|
    ensures UpdateQuery(UpdateQuery(st, index, a), index, b) == UpdateQuery(st, index, a.Then(b))
  {
    MergeThen(st.queries[index], a, b);
  }

  /** Submitting a question and having the fetch rejected marks exactly the
      submitted query with the error, leaving every earlier query intact. */
  lemma RejectedAfterAddQuery(st: State, q: Query)
    ensures Rejected(AddQuery(st, q)).queries == st.queries + [q.(error := Some(ErrorMessage))]
    ensures Rejected(AddQuery(st, q)).status == Failed
  {
  }

  /** An empty fragment resets the accumulated response to `""` and an
      `undefined` one erases it, whatever was streamed before. */
  lemma FalsyFragmentOverwrites(st: State, index: int, fragment: Option<string>)
    requires 0 <= index < |st.queries|
    requires !Truthy(fragment)
    ensures UpdateStreamingQuery(st, index, ResponsePatch(fragment)).queries[index].response == fragment
  {
  }

  /** From the slice's initial state, submitting a question whose fetch is
      rejected leaves exactly that query, marked with the error, with the
      status failed and no conversation id. */
  lemma FirstSubmissionRejected(q: Query)
    ensures Rejected(Pending(AddQuery(Initial, q))) == State([q.(error := Some(ErrorMessage))], Failed, None)
  {
  }
}

=== FILE: thunk.dfy ===
/** The answer-fetching thunk: the citation normalisation it applies, the
    dispatch of each decoded stream event, the single-shot reply, and the
    whole thunk as a function of what the backend delivers. */
module FetchAnswerThunk {
  import opened Wrappers
  import opened Titles
  import opened ConversationModels
  import opened ConversationSlice

  /** A decoded stream event, discriminated on its `type`: `end`, `source`
      (a document and its optional metadata title), `id`, and every other
      type, which carries an answer fragment. */
  datatype Event =
    | End
    | Source(doc: string, title: Option<string>)
    | Id(id: Option<string>)
    | Fragment(answer: Option<string>)
  {
    /** The events that address the query at the captured index. */
    predicate Targets() {
      Source? || Fragment?
    }
  }

  /** A single-shot reply. */
  datatype Answer = Answer(answer: string, sources: seq<Citation>, conversationId: Option<string>)

  /** What the backend delivers: the stream's events (streaming mode), the
      reply (single-shot mode; `None` for a falsy reply), and whether the
      awaited call rejects (after the events, in streaming mode). */
  datatype Backend = Backend(events: seq<Event>, reply: Option<Answer>, fails: bool)

  /** The citation a `source` event streams: a truthy metadata title is cut
      to its last path segment and the document is the text; otherwise the
      document is both title and text. */
  function Cite(doc: string, title: Option<string>): (c: Citation)
    ensures c.text == doc
    ensures Truthy(title) ==> Separator !in c.title && c.title == LastSegment(title.value)
    ensures !Truthy(title) ==> c.title == doc
  {
    if Truthy(title) then Citation(LastSegment(title.value), doc) else Citation(doc, doc)
  }

  /** The single-shot reply's citation mapping, one citation: a truthy title
      is cut to its last path segment, anything else passes through. */
  function NormaliseTitle(c: Citation): Citation {
    if c.title != "" then c.(title := LastSegment(c.title)) else c
  }

  /** The single-shot reply's citations with normalised titles: same length,
      same order, same texts; every title is the longest separator-free
      suffix of the original (a separator stands right before it when it is
      shorter), so titles without a separator are untouched. */
  function NormaliseSources(cs: seq<Citation>): (r: seq<Citation>)
    ensures |r| == |cs|
    ensures forall i :: 0 <= i < |cs| ==>
      && r[i].text == cs[i].text
      && Separator !in r[i].title
      && |r[i].title| <= |cs[i].title|
      && cs[i].title[|cs[i].title| - |r[i].title|..] == r[i].title
      && (|r[i].title| < |cs[i].title| ==> cs[i].title[|cs[i].title| - |r[i].title| - 1] == Separator)
    ensures forall i :: 0 <= i < |cs| && cs[i].title != "" ==> r[i].title == LastSegment(cs[i].title)
    ensures forall i :: 0 <= i < |cs| && Separator !in cs[i].title ==> r[i] == cs[i]
  {
    seq(|cs|, i requires 0 <= i < |cs| => NormaliseTitle(cs[i]))
  }

  /** Normalising the citations twice is normalising them once. */
  lemma NormaliseSourcesIdempotent(cs: seq<Citation>)
    ensures NormaliseSources(NormaliseSources(cs)) == NormaliseSources(cs)
  {
  }

  /** One stream event's dispatch; `target` is the index of the last query
      as captured when the thunk started. Each event makes exactly one change. */
  function Step(st: State, target: int, ev: Event): (r: State)
    requires ev.Targets() ==> 0 <= target < |st.queries|
    ensures SameExcept(st.queries, r.queries, target)
    ensures ev.End? ==> r == st.(status := Idle)
    ensures ev.Id? ==> r == st.(conversationId := ev.id)
    ensures ev.Targets() ==>
      && r.status == st.status && r.conversationId == st.conversationId
      && var q, q' := st.queries[target], r.queries[target];
      && q'.question == q.question && q'.conversationId == q.conversationId && q'.error == q.error
      && (ev.Source? ==> q'.response == q.response
                         && q'.sources == Some(q.sources.GetOr([]) + [Cite(ev.doc, ev.title)]))
      && (ev.Fragment? ==> q'.sources == q.sources
                           && q'.response == if Truthy(ev.answer) then Some(q.response.GetOr("") + ev.answer.value)
                                             else ev.answer)
  {
    match ev
    case End => SetStatus(st, Idle)
    case Source(doc, title) =>
      var r := UpdateStreamingSource(st, target, SourcesPatch([Cite(doc, title)]));
      var before := st.queries[target].sources.GetOr([]);
      assert r.queries[target].sources.value == before + [Cite(doc, title)];
      r
    case Id(id) => UpdateConversationId(st, ConversationIdPatch(id))
    case Fragment(answer) => UpdateStreamingQuery(st, target, ResponsePatch(answer))
  }

  /** The captured index is a valid query index whenever some event of the
      stream addresses it. */
  predicate Addressable(st: State, target: int, evs: seq<Event>) {
    forall i :: 0 <= i < |evs| && evs[i].Targets() ==> 0 <= target < |st.queries|
  }

  /** The stream's events dispatched in arrival order. The queries keep their
      length, and only the target query changes, keeping its question, its
      conversation id and its error. */
  function Run(st: State, target: int, evs: seq<Event>): (r: State)
    requires Addressable(st, target, evs)
    ensures SameExcept(st.queries, r.queries, target)
    ensures 0 <= target < |st.queries| ==>
      var q, q' := st.queries[target], r.queries[target];
      q'.question == q.question && q'.conversationId == q.conversationId && q'.error == q.error
    decreases |evs|
  {
    if |evs| == 0 then st
    else
      assert evs[0].Targets() ==> 0 <= target < |st.queries|;
      Run(Step(st, target, evs[0]), target, evs[1..])
  }

  /** The stream leaves the status idle once an `end` event arrived, and
      untouched otherwise. */
  lemma {:induction false} RunStatus(st: State, target: int, evs: seq<Event>)
    requires Addressable(st, target, evs)
    ensures (exists i :: 0 <= i < |evs| && evs[i].End?) ==> Run(st, target, evs).status == Idle
    ensures (forall i :: 0 <= i < |evs| ==> !evs[i].End?) ==> Run(st, target, evs).status == st.status
    decreases |evs|
  {
    if |evs| > 0 {
      var next := Step(st, target, evs[0]);
      RunStatus(next, target, evs[1..]);
      if exists i :: 0 <= i < |evs| && evs[i].End? {
        var i :| 0 <= i < |evs| && evs[i].End?;
        if i > 0 {
          assert evs[1..][i - 1].End?;
        }
      }
    }
  }

  /** The conversation id after the stream is the one the last `id` event
      carried, or the old one when no `id` event arrived. */
  lemma RunConversationId(st: State, target: int, evs: seq<Event>)
    requires Addressable(st, target, evs)
    ensures (forall i :: 0 <= i < |evs| ==> !evs[i].Id?) ==>
      Run(st, target, evs).conversationId == st.conversationId
    ensures forall k :: 0 <= k < |evs| && evs[k].Id? && (forall m :: k < m < |evs| ==> !evs[m].Id?) ==>
      Run(st, target, evs).conversationId == evs[k].id
  {
    RunLatestId(st, target, evs);
    LatestIdLast(evs, st.conversationId);
  }


  /** Concatenation of a list of strings, in order. */
  function Concat(xs: seq<string>): string
    decreases |xs|
  {
    if |xs| == 0 then "" else xs[0] + Concat(xs[1..])
  }

  /** The fragment events carrying `answers`, in order. */
  function Fragments(answers: seq<string>): (evs: seq<Event>)
    ensures |evs| == |answers|
    ensures forall i :: 0 <= i < |answers| ==> evs[i] == Fragment(Some(answers[i]))
  {
    seq(|answers|, i requires 0 <= i < |answers| => Fragment(Some(answers[i])))
  }

  /** Non-empty fragments accumulate: after them the target's response is
      the old response (absent counting as `""`) followed by all fragments
      in arrival order; with no fragments it is untouched. */
  lemma RunFragments(st: State, target: int, answers: seq<string>)
    requires 0 <= target < |st.queries|
    requires forall i :: 0 <= i < |answers| ==> answers[i] != ""
    ensures var r := Run(st, target, Fragments(answers)).queries[target].response;
      r == if |answers| == 0 then st.queries[target].response
           else Some(st.queries[target].response.GetOr("") + Concat(answers))
  {
    AnswersOfFragments(answers);
    RunResponse(st, target, Fragments(answers));
  }


  /** Streaming non-empty fragments into a query with no response yet gives
      exactly their concatenation. */
  lemma StreamedResponse(st: State, target: int, answers: seq<string>)
    requires 0 <= target < |st.queries| && st.queries[target].response.None?
    requires |answers| > 0
    requires forall i :: 0 <= i < |answers| ==> answers[i] != ""
    ensures Run(st, target, Fragments(answers)).queries[target].response == Some(Concat(answers))
  {
    AnswersOfFragments(answers);
    RunResponse(st, target, Fragments(answers));
    assert "" + Concat(answers) == Concat(answers);
  }

  /** The `source` events carrying `docs` with their titles, in order. */
  function Sources(docs: seq<string>, titles: seq<Option<string>>): (evs: seq<Event>)
    requires |docs| == |titles|
    ensures |evs| == |docs|
    ensures forall i :: 0 <= i < |docs| ==> evs[i] == Source(docs[i], titles[i])
  {
    seq(|docs|, i requires 0 <= i < |docs| => Source(docs[i], titles[i]))
  }

  /** Streamed citations are appended in arrival order after the existing
      ones, each normalised, and the response is untouched. */
  lemma RunSources(st: State, target: int, docs: seq<string>, titles: seq<Option<string>>)
    requires 0 <= target < |st.queries|
    requires |docs| == |titles| > 0
    ensures var q, q' := st.queries[target], Run(st, target, Sources(docs, titles)).queries[target];
      var before := q.sources.GetOr([]);
      && q'.response == q.response
      && q'.sources.Some?
      && |q'.sources.value| == |before| + |docs|
      && q'.sources.value[..|before|] == before
      && forall i :: 0 <= i < |docs| ==> q'.sources.value[|before| + i] == Cite(docs[i], titles[i])
  {
    CitesOfSources(docs, titles);
    RunCitations(st, target, Sources(docs, titles));
    RunResponse(st, target, Sources(docs, titles));
    ProjectionsEmpty(Sources(docs, titles));
  }

  /** The fragment events of `answers` carry exactly `answers`. */
  lemma {:induction false} AnswersOfFragments(answers: seq<string>)
    ensures Answers(Fragments(answers)) == answers
    decreases |answers|
  {
    if |answers| > 0 {
      assert Fragments(answers)[1..] == Fragments(answers[1..]);
      AnswersOfFragments(answers[1..]);
      assert answers == [answers[0]] + answers[1..];
    }
  }

  /** The source events of `docs` and `titles` yield one citation each, in order. */
  lemma {:induction false} CitesOfSources(docs: seq<string>, titles: seq<Option<string>>)
    requires |docs| == |titles|
    ensures |Cites(Sources(docs, titles))| == |docs|
    ensures forall i :: 0 <= i < |docs| ==> Cites(Sources(docs, titles))[i] == Cite(docs[i], titles[i])
    decreases |docs|
  {
    if |docs| > 0 {
      assert Sources(docs, titles)[1..] == Sources(docs[1..], titles[1..]);
      CitesOfSources(docs[1..], titles[1..]);
    }
  }


  /** Dispatching a stream in two pieces is dispatching it whole. */
  lemma {:induction false} RunAppend(st: State, target: int, a: seq<Event>, b: seq<Event>)
    requires Addressable(st, target, a) && Addressable(st, target, b)
    ensures Run(st, target, a + b) == Run(Run(st, target, a), target, b)
    decreases |a|
  {
    if |a| > 0 {
      assert (a + b)[0] == a[0];
      assert (a + b)[1..] == a[1..] + b;
      assert forall i :: 0 <= i < |a[1..]| ==> a[1..][i] == a[i + 1];
      RunAppend(Step(st, target, a[0]), target, a[1..], b);
    } else {
      assert a + b == b;
    }
  }

  /** The answers of a stream's fragment events, in arrival order (an
      absent answer read as ""). */
  function Answers(evs: seq<Event>): seq<string>
    decreases |evs|
  {
    if |evs| == 0 then []
    else (if evs[0].Fragment? then [evs[0].answer.GetOr("")] else []) + Answers(evs[1..])
  }

  /** The normalised citations of a stream's source events, in arrival order. */
  function Cites(evs: seq<Event>): seq<Citation>
    decreases |evs|
  {
    if |evs| == 0 then []
    else (if evs[0].Source? then [Cite(evs[0].doc, evs[0].title)] else []) + Cites(evs[1..])
  }

  /** A stream has no answers exactly when it has no fragment event, and no
      citations exactly when it has no `source` event. */
  lemma {:induction false} ProjectionsEmpty(evs: seq<Event>)
    ensures |Answers(evs)| == 0 <==> forall i :: 0 <= i < |evs| ==> !evs[i].Fragment?
    ensures |Cites(evs)| == 0 <==> forall i :: 0 <= i < |evs| ==> !evs[i].Source?
    decreases |evs|
  {
    if |evs| > 0 {
      ProjectionsEmpty(evs[1..]);
      assert forall i :: 0 < i < |evs| ==> evs[i] == evs[1..][i - 1];
    }
  }

  /** The id of a stream's last `id` event, or `current` when it has none. */
  function LatestId(evs: seq<Event>, current: Option<string>): Option<string>
    decreases |evs|
  {
    if |evs| == 0 then current
    else if evs[|evs| - 1].Id? then evs[|evs| - 1].id
    else LatestId(evs[..|evs| - 1], current)
  }
  /** `LatestId` is the id of the last `id` event: with no `id` event it is
      `current`, otherwise the id of the one no later `id` event follows. */
  lemma {:induction false} LatestIdLast(evs: seq<Event>, current: Option<string>)
    ensures (forall i :: 0 <= i < |evs| ==> !evs[i].Id?) ==> LatestId(evs, current) == current
    ensures forall k :: 0 <= k < |evs| && evs[k].Id? && (forall m :: k < m < |evs| ==> !evs[m].Id?) ==>
      LatestId(evs, current) == evs[k].id
    decreases |evs|
  {
    if |evs| > 0 {
      var n := |evs|;
      var init := evs[..n - 1];
      LatestIdLast(init, current);
      if evs[n - 1].Id? {
        assert LatestId(evs, current) == evs[n - 1].id;
        forall k | 0 <= k < n && evs[k].Id? && (forall m :: k < m < n ==> !evs[m].Id?)
          ensures LatestId(evs, current) == evs[k].id
        {
          assert k == n - 1;
        }
      } else {
        assert LatestId(evs, current) == LatestId(init, current);
        if forall i :: 0 <= i < n ==> !evs[i].Id? {
          assert forall i :: 0 <= i < |init| ==> !init[i].Id?;
        }
        forall k | 0 <= k < n && evs[k].Id? && (forall m :: k < m < n ==> !evs[m].Id?)
          ensures LatestId(evs, current) == evs[k].id
        {
          assert init[k] == evs[k];
          assert forall m :: k < m < |init| ==> !init[m].Id?;
        }
      }
    }
  }



  /** Every fragment event of the stream carries a non-empty answer. */
  predicate FragmentsTruthy(evs: seq<Event>) {
    forall i :: 0 <= i < |evs| && evs[i].Fragment? ==> Truthy(evs[i].answer)
  }

  /** In any stream whose fragments are all non-empty, interleaved with
      `end`, `id` and `source` events, the target's response is the old one
      (absent read as "") followed by the fragments in arrival order, and is
      untouched when no fragment arrived. */
  lemma {:induction false} RunResponse(st: State, target: int, evs: seq<Event>)
    requires 0 <= target < |st.queries|
    requires FragmentsTruthy(evs)
    ensures var r := Run(st, target, evs).queries[target].response;
      r == if |Answers(evs)| == 0 then st.queries[target].response
           else Some(st.queries[target].response.GetOr("") + Concat(Answers(evs)))
    decreases |evs|
  {
    if |evs| > 0 {
      var next := Step(st, target, evs[0]);
      assert Run(st, target, evs) == Run(next, target, evs[1..]);
      FragmentsTruthyTail(evs);
      RunResponse(next, target, evs[1..]);
      StepResponse(st, target, evs[0]);
      if evs[0].Fragment? {
        assert Answers(evs) == [evs[0].answer.value] + Answers(evs[1..]);
        AppendFragment(st.queries[target].response.GetOr(""), evs[0].answer.value, Answers(evs[1..]));
      } else {
        assert Answers(evs) == Answers(evs[1..]);
      }
    }
  }

  /** The tail of a stream whose fragments are non-empty has non-empty fragments. */
  lemma FragmentsTruthyTail(evs: seq<Event>)
    requires |evs| > 0 && FragmentsTruthy(evs)
    ensures FragmentsTruthy(evs[1..])
  {
    forall i | 0 <= i < |evs[1..]| && evs[1..][i].Fragment? ensures Truthy(evs[1..][i].answer) {
      assert evs[1..][i] == evs[i + 1];
    }
  }

  /** Appending one fragment and then the rest is appending all of them. */
  lemma AppendFragment(prior: string, a: string, rest: seq<string>)
    ensures (if |rest| == 0 then prior + a else prior + a + Concat(rest)) == prior + Concat([a] + rest)
  {
    ConcatCons(a, rest);
    if |rest| > 0 {
      assert prior + a + Concat(rest) == prior + (a + Concat(rest));
    }
  }


  /** One event's effect on the target's response: a non-empty fragment
      appends, every other event leaves it. */
  lemma StepResponse(st: State, target: int, ev: Event)
    requires 0 <= target < |st.queries|
    requires ev.Fragment? ==> Truthy(ev.answer)
    ensures Step(st, target, ev).queries[target].response ==
      if ev.Fragment? then Some(st.queries[target].response.GetOr("") + ev.answer.value)
      else st.queries[target].response
  {
  }

  /** Concatenation peels off its first string. */
  lemma ConcatCons(a: string, rest: seq<string>)
    ensures Concat([a] + rest) == a + Concat(rest)
    ensures |rest| == 0 ==> Concat([a] + rest) == a
  {
    assert ([a] + rest)[1..] == rest;
    if |rest| == 0 {
      assert a + "" == a;
    }
  }


  /** In any stream, the target's citations are the old ones followed by the
      normalised citations of its `source` events in arrival order, and are
      untouched when no `source` event arrived. */
  lemma {:induction false} RunCitations(st: State, target: int, evs: seq<Event>)
    requires 0 <= target < |st.queries|
    ensures var r := Run(st, target, evs).queries[target].sources;
      r == if |Cites(evs)| == 0 then st.queries[target].sources
           else Some(st.queries[target].sources.GetOr([]) + Cites(evs))
    decreases |evs|
  {
    if |evs| > 0 {
      var next := Step(st, target, evs[0]);
      RunCitations(next, target, evs[1..]);
      var before := st.queries[target].sources.GetOr([]);
      var rest := Cites(evs[1..]);
      if evs[0].Source? {
        var c := Cite(evs[0].doc, evs[0].title);
        assert Cites(evs) == [c] + rest;
        assert next.queries[target].sources == Some(before + [c]);
        if |rest| == 0 {
          assert Cites(evs) == [c];
        } else {
          assert before + [c] + rest == before + Cites(evs);
        }
      } else {
        assert Cites(evs) == rest;
      }
    }
  }

  /** In any stream, the conversation id ends as the last `id` event's. */
  lemma {:induction false} RunLatestId(st: State, target: int, evs: seq<Event>)
    requires Addressable(st, target, evs)
    ensures Run(st, target, evs).conversationId == LatestId(evs, st.conversationId)
    decreases |evs|
  {
    if |evs| > 0 {
      var init, last := evs[..|evs| - 1], evs[|evs| - 1];
      assert evs == init + [last];
      assert forall i :: 0 <= i < |init| ==> init[i] == evs[i];
      RunAppend(st, target, init, [last]);
      RunLatestId(st, target, init);
      var mid := Run(st, target, init);
      assert Run(mid, target, [last]) == Run(Step(mid, target, last), target, []);
    }
  }

  /** A completed stream of non-empty fragments closed by `end`, into a query
      with no response yet: the response is exactly their concatenation and
      the status is idle. */
  lemma CompletedStream(st: State, target: int, answers: seq<string>)
    requires 0 <= target < |st.queries| && st.queries[target].response.None?
    requires |answers| > 0
    requires forall i :: 0 <= i < |answers| ==> answers[i] != ""
    ensures var r := Run(st, target, Fragments(answers) + [End]);
      r.queries[target].response == Some(Concat(answers)) && r.status == Idle
  {
    StreamedResponse(st, target, answers);
    RunAppend(st, target, Fragments(answers), [End]);
    var mid := Run(st, target, Fragments(answers));
    assert Run(mid, target, [End]) == Run(Step(mid, target, End), target, []);
  }

  /** A falsy fragment (empty or `undefined`) discards everything streamed
      before it: afterwards the response is that fragment, followed by the
      non-empty fragments that come after it. */
  lemma RunAfterFalsy(st: State, target: int, a: seq<Event>, x: Option<string>, b: seq<Event>)
    requires 0 <= target < |st.queries|
    requires !Truthy(x) && FragmentsTruthy(b)
    ensures Run(st, target, a + [Fragment(x)] + b).queries[target].response ==
      if |Answers(b)| == 0 then x else Some(x.GetOr("") + Concat(Answers(b)))
  {
    RunAppend(st, target, a + [Fragment(x)], b);
    RunAppend(st, target, a, [Fragment(x)]);
    var mid := Run(st, target, a);
    var reset := Step(mid, target, Fragment(x));
    assert Run(mid, target, [Fragment(x)]) == Run(reset, target, []);
    assert reset.queries[target].response == x;
    RunResponse(reset, target, b);
  }

  /** In any stream, the response is fixed by the last falsy fragment and the
      non-empty fragments after it. */
  lemma RunLastFalsy(st: State, target: int, evs: seq<Event>)
    requires 0 <= target < |st.queries|
    ensures forall k :: 0 <= k < |evs| && evs[k].Fragment? && !Truthy(evs[k].answer) && FragmentsTruthy(evs[k + 1..]) ==>
      Run(st, target, evs).queries[target].response ==
        if |Answers(evs[k + 1..])| == 0 then evs[k].answer
        else Some(evs[k].answer.GetOr("") + Concat(Answers(evs[k + 1..])))
  {
    forall k | 0 <= k < |evs| && evs[k].Fragment? && !Truthy(evs[k].answer) && FragmentsTruthy(evs[k + 1..])
      ensures Run(st, target, evs).queries[target].response ==
        if |Answers(evs[k + 1..])| == 0 then evs[k].answer
        else Some(evs[k].answer.GetOr("") + Concat(Answers(evs[k + 1..])))
    {
      assert evs == evs[..k] + [Fragment(evs[k].answer)] + evs[k + 1..];
      RunAfterFalsy(st, target, evs[..k], evs[k].answer, evs[k + 1..]);
    }
  }

  /** Streaming "a", then "", then "b" into a query with no response leaves "b". */
  lemma FalsyFragmentExample(st: State, target: int)
    requires 0 <= target < |st.queries| && st.queries[target].response.None?
    ensures Run(st, target, [Fragment(Some("a")), Fragment(Some("")), Fragment(Some("b"))]).queries[target].response == Some("b")
  {
    var b := [Fragment(Some("b"))];
    assert [Fragment(Some("a")), Fragment(Some("")), Fragment(Some("b"))] == [Fragment(Some("a"))] + [Fragment(Some(""))] + b;
    RunAfterFalsy(st, target, [Fragment(Some("a"))], Some(""), b);
    assert Answers(b) == ["b"] by {
      assert b[1..] == [];
    }
    assert ["b"][1..] == [];
    assert Concat(["b"]) == "b";
    assert Some("").GetOr("") + "b" == "b";
  }

  /** The single-shot reply's dispatches: the last query takes the answer and
      the normalised citations, the conversation id is the reply's, and the
      status becomes idle. */
  function ApplyAnswer(st: State, target: int, a: Answer): (r: State)
    requires 0 <= target < |st.queries|
    ensures SameExcept(st.queries, r.queries, target)
    ensures var q, q' := st.queries[target], r.queries[target];
      && q'.response == Some(a.answer)
      && q'.sources == Some(NormaliseSources(a.sources))
      && q'.question == q.question && q'.conversationId == q.conversationId && q'.error == q.error
    ensures r.conversationId == a.conversationId && r.status == Idle
  {
    var updated := UpdateQuery(st, target, ResponsePatch(Some(a.answer)).(sources := Given(Some(NormaliseSources(a.sources)))));
    SetStatus(UpdateConversationId(updated, ConversationIdPatch(a.conversationId)), Idle)
  }

  /** The whole thunk: `pending`, then, when preferences are present, the
      streaming or single-shot exchange, then `rejected` if the backend call
      failed. Nothing is dispatched for a falsy single-shot reply or missing
      preferences, so the status then stays loading (the thunk fulfils and
      the slice has no case for that). */
  function FetchAnswer(st: State, streaming: bool, hasPreference: bool, backend: Backend): (r: State)
    requires |st.queries| > 0
    ensures SameExcept(st.queries, r.queries, |st.queries| - 1)
    ensures r.queries[|st.queries| - 1].question == st.queries[|st.queries| - 1].question
    ensures !hasPreference ==> r == st.(status := Loading)
    ensures hasPreference && backend.fails ==>
      r.status == Failed && r.queries[|st.queries| - 1].error == Some(ErrorMessage)
    ensures hasPreference && !streaming ==>
      var q, q' := st.queries[|st.queries| - 1], r.queries[|st.queries| - 1];
      if backend.fails || backend.reply.None? then
        && r.conversationId == st.conversationId
        && q'.response == q.response && q'.sources == q.sources && q'.conversationId == q.conversationId
        && (!backend.fails ==> r == st.(status := Loading))
      else
        && r.status == Idle
        && r.conversationId == backend.reply.value.conversationId
        && q'.response == Some(backend.reply.value.answer)
        && q'.sources == Some(NormaliseSources(backend.reply.value.sources))
        && q'.conversationId == q.conversationId && q'.error == q.error
    ensures hasPreference && streaming ==>
      var q, q' := st.queries[|st.queries| - 1], r.queries[|st.queries| - 1];
      var evs := backend.events;
      && r.conversationId == LatestId(evs, st.conversationId)
      && q'.conversationId == q.conversationId
      && q'.sources == (if |Cites(evs)| == 0 then q.sources else Some(q.sources.GetOr([]) + Cites(evs)))
      && (FragmentsTruthy(evs) ==>
            q'.response == if |Answers(evs)| == 0 then q.response
                           else Some(q.response.GetOr("") + Concat(Answers(evs))))
      && (forall k :: 0 <= k < |evs| && evs[k].Fragment? && !Truthy(evs[k].answer) && FragmentsTruthy(evs[k + 1..]) ==>
            q'.response == if |Answers(evs[k + 1..])| == 0 then evs[k].answer
                           else Some(evs[k].answer.GetOr("") + Concat(Answers(evs[k + 1..]))))
      && (!backend.fails ==>
            && r.status == (if exists i :: 0 <= i < |evs| && evs[i].End? then Idle else Loading)
            && q'.error == q.error)
  {
    var started := Pending(st);
    var target := |started.queries| - 1;
    if !hasPreference then started
    else if streaming then
      var delivered := Run(started, target, backend.events);
      RunStatus(started, target, backend.events);
      RunLatestId(started, target, backend.events);
      RunCitations(started, target, backend.events);
      RunLastFalsy(started, target, backend.events);
      var finished := if backend.fails then Rejected(delivered) else delivered;
      if FragmentsTruthy(backend.events) then
        RunResponse(started, target, backend.events);
        finished
      else finished
    else if backend.fails then Rejected(started)
    else match backend.reply
      case None => started
      case Some(a) => ApplyAnswer(started, target, a)
  }
}

=== FILE: titles.dfy ===
/** Source titles are document paths; the conversation slice shows only the
    segment after the last `/`, computed as `title.split('/')` followed by
    taking the final element. This module models JavaScript's
    `String.prototype.split` for a one-character separator and that final
    element. */
module Titles {

  /** The path separator the slice splits titles on. */
  const Separator: char := '/'

  /** The inverse of `Split`: the parts glued back together with `sep`. */
  function Join(parts: seq<string>, sep: char): string
    requires |parts| > 0
    decreases |parts|
  {
    if |parts| == 1 then parts[0] else parts[0] + [sep] + Join(parts[1..], sep)
  }

  /** JavaScript `s.split(sep)` for a one-character `sep`: never empty (the
      empty string splits to `[""]`), no part holds the separator, and the
      parts re-joined give back `s`. */
  function Split(s: string, sep: char): (parts: seq<string>)
    ensures |parts| > 0
    ensures forall i :: 0 <= i < |parts| ==> sep !in parts[i]
    ensures Join(parts, sep) == s
    decreases |s|
  {
    if |s| == 0 then [""]
    else
      var rest := Split(s[1..], sep);
      if s[0] == sep then
        assert s == [sep] + s[1..];
        [""] + rest
      else
        var head := [s[0]] + rest[0];
        assert sep !in head;
        if |rest| == 1 then
          assert head == s;
          [head]
        else
          assert Join(rest, sep) == rest[0] + [sep] + Join(rest[1..], sep);
          [head] + rest[1..]
  }

  /** Splitting around one separator splits each side independently. */
  lemma {:induction false} SplitConcat(a: string, b: string, sep: char)
    ensures Split(a + [sep] + b, sep) == Split(a, sep) + Split(b, sep)
    decreases |a|
  {
    if |a| == 0 {
      assert a + [sep] + b == [sep] + b;
      assert ([sep] + b)[1..] == b;
    } else {
      var s := a + [sep] + b;
      assert s[0] == a[0];
      assert s[1..] == a[1..] + [sep] + b;
      SplitConcat(a[1..], b, sep);
    }
  }

  /** Splitting is the inverse of joining separator-free parts. */
  lemma {:induction false} SplitJoin(parts: seq<string>, sep: char)
    requires |parts| > 0
    requires forall i :: 0 <= i < |parts| ==> sep !in parts[i]
    ensures Split(Join(parts, sep), sep) == parts
    decreases |parts|
  {
    SplitWithout(parts[0], sep);
    if |parts| > 1 {
      SplitJoin(parts[1..], sep);
      SplitConcat(parts[0], Join(parts[1..], sep), sep);
      assert parts == [parts[0]] + parts[1..];
    }
  }

  /** A string without the separator splits to itself alone. */
  lemma {:induction false} SplitWithout(s: string, sep: char)
    requires sep !in s
    ensures Split(s, sep) == [s]
    decreases |s|
  {
    if |s| > 0 {
      assert sep !in s[1..] by {
        forall k | 0 <= k < |s[1..]| ensures s[1..][k] != sep {
          assert s[1..][k] == s[k + 1];
        }
      }
      SplitWithout(s[1..], sep);
    }
  }

  /** The last part of a join is a suffix of it, and, when there is more than
      one part, the character before that suffix is the separator. */
  lemma {:induction false} JoinLast(parts: seq<string>, sep: char)
    requires |parts| > 0
    ensures var s, last := Join(parts, sep), parts[|parts| - 1];
      && |last| <= |s|
      && s[|s| - |last|..] == last
      && (|parts| > 1 ==> |last| < |s| && s[|s| - |last| - 1] == sep)
    decreases |parts|
  {
    if |parts| > 1 {
      var t := Join(parts[1..], sep);
      var s := Join(parts, sep);
      var last := parts[|parts| - 1];
      JoinLast(parts[1..], sep);
      assert parts[1..][|parts[1..]| - 1] == last;
      assert s == (parts[0] + [sep]) + t;
      assert s[|s| - |t|..] == t;
      assert s[|s| - |last|..] == t[|t| - |last|..];
      if |parts| == 2 {
        assert t == last;
        assert s[|s| - |last| - 1] == sep;
      } else {
        assert s[|s| - |last| - 1] == t[|t| - |last| - 1];
      }
    }
  }

  /** `parts[parts.length - 1]` of `title.split('/')`: the longest suffix of
      `title` that holds no separator. It is a suffix, it holds no separator,
      and when it is not the whole title a separator stands right before it. */
  function LastSegment(title: string): (r: string)
    ensures Separator !in r
    ensures |r| <= |title| && title[|title| - |r|..] == r
    ensures |r| < |title| ==> title[|title| - |r| - 1] == Separator
  {
    var parts := Split(title, Separator);
    JoinLast(parts, Separator);
    parts[|parts| - 1]
  }

  /** A title is left unchanged exactly when it holds no separator. */
  lemma LastSegmentUnchangedIff(title: string)
    ensures LastSegment(title) == title <==> Separator !in title
  {
  }

  /** A title ending in a separator normalises to the empty string (JavaScript
      `"a/".split('/')` ends with `""`). */
  lemma LastSegmentTrailingSeparator(title: string)
    requires |title| > 0 && title[|title| - 1] == Separator
    ensures LastSegment(title) == ""
  {
  }

  /** Whatever precedes the last separator is irrelevant. */
  lemma LastSegmentAfterSeparator(dir: string, name: string)
    ensures LastSegment(dir + [Separator] + name) == LastSegment(name)
  {
    SplitConcat(dir, name, Separator);
    var left, right := Split(dir, Separator), Split(name, Separator);
    var both := Split(dir + [Separator] + name, Separator);
    assert both == left + right;
    assert both[|both| - 1] == right[|right| - 1];
  }

  /** Normalising twice is normalising once. */
  lemma LastSegmentIdempotent(title: string)
    ensures LastSegment(LastSegment(title)) == LastSegment(title)
  {
    LastSegmentUnchangedIff(LastSegment(title));
  }

  /** A document path is shown by its file name. */
  lemma FileNameExample()
    ensures LastSegment("docs/guide/setup.md") == "setup.md"
  {
    var dir, name := "docs/guide", "setup.md";
    NoSeparatorInFileName();
    LastSegmentUnchangedIff(name);
    assert dir + [Separator] + name == "docs/guide/setup.md";
    LastSegmentAfterSeparator(dir, name);
  }

  /** The example's file name holds no separator. */
  lemma NoSeparatorInFileName()
    ensures Separator !in "setup.md"
  {
    var name := "setup.md";
    forall k | 0 <= k < |name| ensures name[k] != Separator { }
  }
}

=== FILE: wrappers.dfy ===
/** Optional values: the model's stand-in for JavaScript's `undefined` / `null`. */
module Wrappers {

  datatype Option<+T> = None | Some(value: T) {

    /** The wrapped value, or `default` when absent. The slice reads an
        absent response with `response || ''`, which gives the same string,
        and an absent citation list is only ever extended. */
    function GetOr(default: T): T {
      match this
      case Some(v) => v
      case None => default
    }
  }
}
